=== FILE: README.md ===
# Audio player transport, navigation filter and recommendation redirect

A Dafny model of the logic in a small audio-streaming web client:

- **The playback transport** (`components/AudioPlayer.tsx`): one audio element bound to the
  selected track of an ordered track list. Resource events (metadata loaded, time update,
  ended) and user intents (play/pause, seek, volume, mute, previous, next, keyboard
  shortcuts, the progress and volume bars) are pure transitions over an immutable `Player`
  record. That record holds the rendered view state (`isPlaying`, `volume`, `muted`,
  `progress`, `duration`, `isLoading`) and the audio element's own state. Both are needed
  because the handlers read one or the other.
- **Listener teardown** is a binding generation. Each binding listens under the current
  generation. The effect's cleanup pauses the element, detaches the listeners and advances
  the generation. An event is handled only when it carries the generation that is still
  listening.
- **The header** (`components/Navbar.tsx`): the navigation items shown for a stored email,
  and the mobile menu's open flag.
- **The recommendation link** (`app/api/recommend/route.ts`): the redirect target chosen from
  the `trackId` and `userEmail` query parameters.

Files, one module each: `wrappers.dfy` (Option), `js_number.dfy` (NaN-or-finite numbers,
`x || d`, truncating `%`, clamping), `tracks.dfy` (`findIndex`), `time_format.dfy`
(`formatTime` and a reader of its labels), `transport.dfy` (the state machine),
`controls.dfy` (keyboard, buttons, bars, whole runs of inputs), `navbar.dfy`,
`recommend_route.dfy`.

Six behaviours of the code are easy to misread; the model follows the code:

- Seeking is not clamped. The progress bar passes `clickX / width` straight through. Only the
  volume bar clamps to [0, 1], and `handleVolumeChange` itself does not.
- A new track-list array re-runs the binding effect, because the list is one of its
  dependencies. This happens even when the current track is unchanged, so progress and
  duration reset (`ReplaceTracks`).
- A change of track does not reset `isPlaying`. After skipping while playing, the flag stays
  on while the reloaded element is paused. Toggling play twice therefore restores the player
  only when the flag agrees with the element (`TogglePlayTwice`).
- There is no error listener and no failed state. A load that never delivers metadata leaves
  `isLoading` set.
- `progress` is not always in [0, 1]. A seek can set any ratio. A time update divides by 1
  while the element's duration is NaN or 0. Progress is a ratio only when the reported time
  lies within a known duration (`ProgressIsRatio`).
- The rendered duration is a snapshot taken when metadata arrives, but a time update divides
  by the element's live duration. Nothing listens for a later `durationchange`. If the
  element revises its duration, the two differ, and the elapsed label shows the time scaled
  by their ratio (`OnDurationChange`, `ElapsedLabelUsesSnapshot`).

## Model

| member | source | states |
|---|---|---|
| Tracks.IndexOf | components/AudioPlayer.tsx:35 | the current index is the first position holding the track's id, and -1 exactly when no track has that id |
| JsNumber.Rem60 | components/AudioPlayer.tsx:128 | JavaScript's `t % 60` keeps the sign of `t`, stays strictly within 60 of zero, and `Trunc(t/60)*60 + rem == t` |
| JsNumber.Clamp01 | components/AudioPlayer.tsx:280 | the volume-bar ratio is clamped into [0, 1], is unchanged inside it, and becomes 0 below and 1 above |
| TimeFormat.PadStart2 | components/AudioPlayer.tsx:129 | `padStart(2, '0')` leaves strings of two or more characters alone and left-pads shorter ones with '0' to exactly two |
| TimeFormat.FormatTime | components/AudioPlayer.tsx:125-130 | NaN shows "0:00"; a non-negative time's label reads back as its whole number of seconds |
| TimeFormat.ParseNatToString | components/AudioPlayer.tsx:129 | reading back the decimal rendering of a whole number gives that number |
| TimeFormat.FormatTimeFields | components/AudioPlayer.tsx:127-129 | for t >= 0 the label is `floor(t/60)` in decimal, a colon, and a two-character seconds field whose value is `floor(t) mod 60` |
| TimeFormat.FormatTimeExample | components/AudioPlayer.tsx:127-129 | 125 seconds shows "2:05" |
| TimeFormat.FormatTimeZero | components/AudioPlayer.tsx:125-130 | 0 and NaN both show "0:00" |
| TimeFormat.FormatTimeNegative | components/AudioPlayer.tsx:127-129 | a negative time follows floor and truncating remainder: -5 shows "-1:-5" |
| Transport.Mount | components/AudioPlayer.tsx:28-46 | mounting starts from the hook defaults (volume 1, unmuted, not playing) and binds: loading, progress and duration 0, listeners attached, view and element in agreement |
| Transport.Bind | components/AudioPlayer.tsx:38-68 | binding sets loading, zeroes progress and duration, reloads the element for the track (paused, rewound to 0, duration NaN), attaches listeners, and keeps `isPlaying` and the volume preference |
| Transport.Teardown | components/AudioPlayer.tsx:70-75 | cleanup pauses the element without rewinding it, detaches the listeners (new generation, not listening) and changes nothing the view shows |
| Transport.Rebind | components/AudioPlayer.tsx:38-76 | a change of the effect's inputs tears the old binding down before binding afresh: new generation, loading, progress and duration 0, only the volume preference and playing flag carried over |
| Transport.Select | components/AudioPlayer.tsx:35-76 | `setTrack` rebinds exactly when the track's identity changes, and is a no-op for the track already shown |
| Transport.ReplaceTracks | components/AudioPlayer.tsx:76 | a new track-list array rebinds the current track |
| Transport.OnLoadedMetadata | components/AudioPlayer.tsx:47-52 | the rendered duration is 0 exactly when the reported one is NaN or 0, and the reported value otherwise; loading ends and playback starts |
| Transport.ProgressDivisor | components/AudioPlayer.tsx:63 | the divisor is never 0: it is 1 when the element's duration is NaN or 0, and that duration otherwise |
| Transport.OnDurationChange | components/AudioPlayer.tsx:66-68 | an element duration change reaches no listener: only the element's duration changes, and the rendered duration, progress and flags stay |
| Transport.OnTimeUpdate | components/AudioPlayer.tsx:61-64 | progress times the divisor equals the reported time; flags, duration and volume preference are unchanged |
| Transport.OnEnded | components/AudioPlayer.tsx:54-59 | playing stops; when a later track with another id exists it is bound, otherwise only the playing flag clears and the element stays paused, everything else unchanged |
| Transport.Deliver | components/AudioPlayer.tsx:66-75 | an event changes the player only if it carries the generation whose listeners are attached; stale or post-teardown events are no-ops |
| Transport.TogglePlay | components/AudioPlayer.tsx:78-87 | the element's paused flag flips and `isPlaying` becomes true exactly when the element was paused; nothing else in the view or the element changes |
| Transport.HandleVolumeChange | components/AudioPlayer.tsx:89-98 | the volume becomes `val[0]` (0 for an empty array) on view and element; muted is cleared exactly when the new volume is positive and it was muted |
| Transport.HandleSeek | components/AudioPlayer.tsx:100-104 | progress becomes the given ratio unclamped, the element is sent to ratio times duration, and playing, loading and volume preference are unchanged |
| Transport.ToggleMute | components/AudioPlayer.tsx:106-111 | muted flips on view and element and the volume is untouched |
| Transport.HandlePrevious | components/AudioPlayer.tsx:113-117 | a no-op at index 0 or when the track is absent; otherwise binds the track one position back |
| Transport.HandleNext | components/AudioPlayer.tsx:119-123 | a no-op at the last index and when the next entry has the same id; otherwise binds the track one position on, which is the first when the track is absent |
| Controls.HandleKey | components/AudioPlayer.tsx:132-150 | keys in an input or text area are ignored; space toggles play, ArrowRight is next, ArrowLeft is previous, m/M toggles mute, any other key changes nothing |
| Controls.PressPrevious | components/AudioPlayer.tsx:206 | the previous button is disabled at index <= 0 and, because the handler is a no-op there, always acts as the handler |
| Controls.PressNext | components/AudioPlayer.tsx:220 | the next button is disabled at the last index and always acts as the handler |
| Controls.PressPlay | components/AudioPlayer.tsx:210 | the play button does nothing while loading and toggles otherwise |
| Controls.ProgressBarClick | components/AudioPlayer.tsx:161-168 | the click seeks to offset/width without clamping and keeps playing state and volume preference |
| Controls.VolumeBarClick | components/AudioPlayer.tsx:275-282 | the click sets a volume in [0, 1] equal to offset/width inside the bar, 0 left of it and 1 right of it; muted stays only at volume 0 |
| Controls.Step | components/AudioPlayer.tsx:38-154 | no input lowers the binding generation, and only volume and mute inputs touch the volume preference |
| Controls.Run | components/AudioPlayer.tsx:38-154 | no run of inputs lowers the binding generation |
| Controls.RunPreservesSynced | components/AudioPlayer.tsx:41-111 | every run keeps the view and the element in agreement: volume and mute are shared, volume is a ratio, the rendered duration is 0 while loading, listeners belong to the selected track |
| Controls.StaleEventsIgnored | components/AudioPlayer.tsx:70-75 | any run of events from superseded bindings leaves the player unchanged |
| Controls.NoCrossTalk | components/AudioPlayer.tsx:70-76 | after a rebind and any later inputs, an event from the replaced binding changes nothing |
| Controls.TeardownSilencesEvents | components/AudioPlayer.tsx:70-75 | after the binding's cleanup (before a re-run) every event is ignored |
| Controls.TogglePlayTwice | components/AudioPlayer.tsx:78-87 | toggling twice restores the player if and only if `isPlaying` agrees with the element's paused flag |
| Controls.SkipKeepsPlayingFlag | components/AudioPlayer.tsx:38-52 | skipping while playing leaves `isPlaying` on while the reloaded element is paused and loading |
| Controls.ToggleMuteTwice | components/AudioPlayer.tsx:106-111 | toggling mute twice restores the player iff view and element agree on muted; volume is never changed |
| Controls.NextAdvancesIndex | components/AudioPlayer.tsx:119-123 | with unique ids next moves the current index to index+1, and from an absent track to the first track |
| Controls.PreviousRetreatsIndex | components/AudioPlayer.tsx:113-117 | with unique ids previous moves the current index to index-1 |
| Controls.SkipAtBoundaries | components/AudioPlayer.tsx:113-123 | next at the last index, previous at index 0, and both on an empty list are no-ops |
| Controls.EndedAdvancesToNextTrack | components/AudioPlayer.tsx:47-59 | with three tracks and the first one ending, the second is bound with progress and duration 0 before metadata, and its metadata starts playback |
| Controls.VolumeThenMuteThenVolume | components/AudioPlayer.tsx:89-111 | volume 0.6 then mute keeps 0.6 muted; a later volume 0.2 sets 0.2 and unmutes |
| Controls.SeekIsNotClamped | components/AudioPlayer.tsx:163-167 | a click past the bar's end sets progress 1.5 |
| Controls.ProgressIsRatio | components/AudioPlayer.tsx:61-64 | with a known positive duration and a time within it, progress is in [0, 1] |
| Controls.ElapsedLabelAfterTimeUpdate | components/AudioPlayer.tsx:227 | while the rendered duration equals the element's positive duration, the elapsed label after a time update t >= 0 reads back as floor(t) |
| Controls.ElapsedLabelUsesSnapshot | components/AudioPlayer.tsx:227 | after metadata d and a revised element duration e, progress is t/e and the elapsed label reads back as floor(t/e*d), not floor(t) |
| Controls.DurationDriftExample | components/AudioPlayer.tsx:227-229 | metadata 100, revised to 200, time 100: progress 0.5 and the elapsed label shows 50 seconds against a total of 100 |
| Controls.DurationLabelAfterMetadata | components/AudioPlayer.tsx:227-229 | after metadata the total-time label reads back as the whole seconds of the duration |
| Navbar.FilterKeepsExactly | components/Navbar.tsx:40-45 | the filter keeps exactly the items passing the test, as a subsequence in original order |
| Navbar.NavItemsShown | components/Navbar.tsx:11-45 | Library, History and Favourites are always shown; Upload and Personal exactly for allowed uploaders; order is kept |
| Navbar.MayUploadIsMembership | components/Navbar.tsx:19-42 | a null or empty email never uploads; otherwise membership in the allowed set decides |
| Navbar.GuestItems | components/Navbar.tsx:40-45 | a visitor who may not upload sees exactly Library, History, Favourites |
| Navbar.UploaderItems | components/Navbar.tsx:40-45 | an allowed uploader sees all five items |
| Navbar.ToggleMobileMenu | components/Navbar.tsx:48-50 | toggling always changes the flag |
| Navbar.OnMouseDown | components/Navbar.tsx:54-58 | a press outside the header closes the menu; inside leaves it unchanged |
| Navbar.OnLinkClick | components/Navbar.tsx:119 | following a mobile link closes the menu |
| Navbar.MenuToggleTwice | components/Navbar.tsx:48-50 | toggling twice is the identity, and following a link is idempotent |
| Navbar.MenuParity | components/Navbar.tsx:48-58 | with no closing event, the menu is open iff its start state differs from the parity of toggles |
| Navbar.MenuClosedAfterClosing | components/Navbar.tsx:54-58 | after an outside press or link click the menu is closed whatever came before |
| RecommendRoute.RedirectTarget | app/api/recommend/route.ts:8-14 | the target is the not-found URL iff either parameter is null or empty, and otherwise the player URL built from both |
| RecommendRoute.PlayerUrlIsNotNotFound | app/api/recommend/route.ts:9-13 | the player URL never equals the not-found URL |
| RecommendRoute.PlayerUrlRoundTrip | app/api/recommend/route.ts:12-14 | a track id without '&' and any email are read back unchanged from the player URL (interpolated verbatim) |
| RecommendRoute.RedirectCarriesParameters | app/api/recommend/route.ts:5-14 | with both parameters present the redirect carries both values verbatim |

## Left out

- Rendering: JSX, styling, icons, images, and the route-highlighting in the header are not modelled.
- React scheduling is not modelled: state batching, effect ordering and dependency identity. A
  re-run of the binding effect is modelled as teardown followed by bind. A new track-list
  array always rebinds.
- The audio element is an abstract record. The `play()` promise, its rejection and autoplay
  policy are not modelled. The element's own clamping of `currentTime` to its seekable range
  is not modelled either. The model records the time the player sets or is told.
- Resource events carry their values as parameters. Their timing and order are left to the
  caller.
- Durations and times are exact reals. Floating-point rounding and infinite durations (live
  streams) are not modelled. NaN appears only where the element reports it.
- The stream URL (base URL from the environment, email and id) is not modelled. The element's
  source is modelled as the bound track's id.
- The null checks on `audioRef.current` and `navbarRef.current` are taken as passing in the
  handlers and in the cleanup that runs before the binding effect re-runs. Both refs are set
  at those points.
- Unmounting is modelled as the cleanup before a re-run. In the code the audio ref is
  already null when the unmount cleanup runs. The listeners therefore stay on the detached
  element, which stops because it leaves the document.
- The keyboard listener is re-attached whenever its dependencies change. It is modelled as
  always seeing the current state, which is what the dependency list achieves.
- The stored email (`localStorage`) in the header is a parameter.
- Transport.HandleVolumeChange: requires the new volume to lie in [0, 1], because the audio
  element rejects other values; the only caller (the volume bar) clamps first.
- Controls.ProgressBarClick: requires a positive bar width; a zero-width bar would give a
  non-finite ratio that the element rejects.
- Controls.VolumeBarClick: requires a positive bar width, for the same reason.
- Tracks.IndexOf: tracks carry only their id; title, artist, album, cover and the other
  descriptor fields (`lib/types.ts`) play no part in the logic.
- The player page (`app/player/PlayerClient.tsx`), the API client (`lib/api.ts`), the login
  page and the layouts are not part of this model. They are data fetching, storage and layout.

=== FILE: controls.dfy ===
/**
 * The input side of the player: the keyboard shortcut dispatcher, the transport buttons
 * with their disabled states, the progress and volume bars, and the time labels. `Step`
 * feeds any single input into the transport, `Run` feeds a sequence of them, and the
 * lemmas state what holds across whole runs.
 */
module Controls {
  import opened Wrappers
  import opened JsNumber
  import opened Tracks
  import opened TimeFormat
  import opened Transport

  /** Where a key press happened: text-entry fields keep their keys. */
  datatype KeyTarget = TextInput | TextArea | OtherElement

  /** `key.toLowerCase() === 'm'`: only "m" and "M" lower-case to "m". */
  predicate IsMuteKey(key: string)
  {
    key == "m" || key == "M"
  }

  /** The window's keydown listener. Keys typed into an input or a text area are left alone;
      otherwise space toggles playback, the arrows skip, and m mutes. */
  function HandleKey(s: Player, target: KeyTarget, key: string): (r: Player)
    ensures target != OtherElement ==> r == s
    ensures target == OtherElement && key == " " ==> r == TogglePlay(s)
    ensures target == OtherElement && key == "ArrowRight" ==> r == HandleNext(s)
    ensures target == OtherElement && key == "ArrowLeft" ==> r == HandlePrevious(s)
    ensures target == OtherElement && IsMuteKey(key) ==> r == ToggleMute(s)
    ensures key !in {" ", "ArrowRight", "ArrowLeft", "m", "M"} ==> r == s
  {
    if target != OtherElement then s
    else if key == " " then TogglePlay(s)
    else if key == "ArrowRight" then HandleNext(s)
    else if key == "ArrowLeft" then HandlePrevious(s)
    else if IsMuteKey(key) then ToggleMute(s)
    else s
  }

  /** The previous button is disabled at or before the start of the list. */
  predicate PreviousDisabled(s: Player)
  {
    CurrentIndex(s) <= 0
  }

  /** The next button is disabled at the last position. */
  predicate NextDisabled(s: Player)
  {
    CurrentIndex(s) >= |s.tracks| - 1
  }

  /** Pressing previous: a disabled button does nothing. Since it is disabled exactly where
      the handler does nothing, the press always behaves as the handler. */
  function PressPrevious(s: Player): (r: Player)
    ensures PreviousDisabled(s) ==> r == s
    ensures r == HandlePrevious(s)
  {
    if PreviousDisabled(s) then s else HandlePrevious(s)
  }

  /** Pressing next, disabled exactly where the handler does nothing. */
  function PressNext(s: Player): (r: Player)
    ensures NextDisabled(s) ==> r == s
    ensures r == HandleNext(s)
  {
    if NextDisabled(s) then s else HandleNext(s)
  }

  /** Pressing play/pause: disabled while loading. Unlike the space key, it cannot start
      the element before its metadata has arrived. */
  function PressPlay(s: Player): (r: Player)
    ensures s.isLoading ==> r == s
    ensures !s.isLoading ==> r == TogglePlay(s)
  {
    if s.isLoading then s else TogglePlay(s)
  }

  /** A click on the progress bar seeks to the horizontal offset over the bar's width,
      without clamping the ratio. */
  function ProgressBarClick(s: Player, clickX: real, width: real): (r: Player)
    requires width > 0.0
    ensures r.progress * width == clickX
    ensures r.audio.currentTime == (clickX / width) * s.duration
    ensures r.isPlaying == s.isPlaying && SamePreferences(s, r)
  {
    HandleSeek(s, clickX / width)
  }

  /** A click on the volume bar sets the volume to the offset ratio clamped into [0, 1]. */
  function VolumeBarClick(s: Player, clickX: real, width: real): (r: Player)
    requires width > 0.0
    ensures 0.0 <= r.volume <= 1.0
    ensures 0.0 <= clickX <= width ==> r.volume * width == clickX
    ensures clickX <= 0.0 ==> r.volume == 0.0
    ensures width <= clickX ==> r.volume == 1.0
    ensures r.muted == (s.muted && r.volume == 0.0)
  {
    HandleVolumeChange(s, [Clamp01(clickX / width)])
  }

  /** The elapsed time the label shows: the rendered progress times the rendered duration. */
  function ElapsedSeconds(s: Player): real
  {
    s.progress * s.duration
  }

  /** The elapsed-time label. */
  function ElapsedLabel(s: Player): string
  {
    FormatTime(Finite(ElapsedSeconds(s)))
  }

  /** The total-time label. */
  function DurationLabel(s: Player): string
  {
    FormatTime(Finite(s.duration))
  }

  /** Every input the player reacts to. */
  datatype Input =
    | Resource(event: Tagged)
    | Key(target: KeyTarget, key: string)
    | PlayButton
    | PreviousButton
    | NextButton
    | MuteButton
    | ProgressBar(clickX: real, width: real)
    | VolumeBar(clickX: real, width: real)
    | NewTrackList(tracks: seq<Track>)
    | DurationChange(duration: Num)

  /** Bars have a positive rendered width. */
  predicate WellFormed(i: Input)
  {
    (i.ProgressBar? || i.VolumeBar?) ==> i.width > 0.0
  }

  /** The inputs that may change the volume preference. */
  predicate TouchesVolume(i: Input)
  {
    i.VolumeBar? || i.MuteButton? || (i.Key? && i.target == OtherElement && IsMuteKey(i.key))
  }

  /** One input. The generation never goes back, and only volume and mute controls touch the
      volume preference. */
  function Step(s: Player, i: Input): (r: Player)
    requires WellFormed(i)
    ensures r.generation >= s.generation
    ensures !TouchesVolume(i) ==> SamePreferences(s, r)
  {
    match i
    case Resource(e) => Deliver(s, e)
    case Key(target, key) => HandleKey(s, target, key)
    case PlayButton => PressPlay(s)
    case PreviousButton => PressPrevious(s)
    case NextButton => PressNext(s)
    case MuteButton => ToggleMute(s)
    case ProgressBar(x, w) => ProgressBarClick(s, x, w)
    case VolumeBar(x, w) => VolumeBarClick(s, x, w)
    case NewTrackList(ts) => ReplaceTracks(s, ts)
    case DurationChange(d) => OnDurationChange(s, d)
  }

  predicate AllWellFormed(ins: seq<Input>)
  {
    forall k :: 0 <= k < |ins| ==> WellFormed(ins[k])
  }

  /** A sequence of inputs, one at a time. The generation never goes back. */
  function Run(s: Player, ins: seq<Input>): (r: Player)
    requires AllWellFormed(ins)
    ensures r.generation >= s.generation
    decreases |ins|
  {
    if |ins| == 0 then s else Run(Step(s, ins[0]), ins[1..])
  }

  /** Every input keeps the view and the element in agreement. */
  lemma StepPreservesSynced(s: Player, i: Input)
    requires Synced(s) && WellFormed(i)
    ensures Synced(Step(s, i))
  {
    match i
    case Resource(e) => DeliverPreservesSynced(s, e);
    case _ =>
  }

  lemma DeliverPreservesSynced(s: Player, e: Tagged)
    requires Synced(s)
    ensures Synced(Deliver(s, e))
  {
    if s.listening && e.generation == s.generation && e.event.Ended? {
      var i := CurrentIndex(s);
      if i < |s.tracks| - 1 {
        assert Synced(OnEnded(s));
      }
    }
  }

  /** Any run keeps the view and the element in agreement: volume and mute are the same on
      both, the volume stays a ratio, the rendered duration is 0 while loading, and the
      attached listeners belong to the selected track. */
  lemma {:induction false} RunPreservesSynced(s: Player, ins: seq<Input>)
    requires Synced(s) && AllWellFormed(ins)
    ensures Synced(Run(s, ins))
    decreases |ins|
  {
    if |ins| > 0 {
      StepPreservesSynced(s, ins[0]);
      RunPreservesSynced(Step(s, ins[0]), ins[1..]);
    }
  }

  /** A run of events that all come from superseded bindings leaves the player as it was. */
  lemma {:induction false} StaleEventsIgnored(s: Player, ins: seq<Input>)
    requires forall k :: 0 <= k < |ins| ==> ins[k].Resource? && ins[k].event.generation < s.generation
    ensures AllWellFormed(ins) && Run(s, ins) == s
    decreases |ins|
  {
    if |ins| > 0 {
      assert Step(s, ins[0]) == s;
      StaleEventsIgnored(s, ins[1..]);
    }
  }

  /** Once a new binding has started, an event from the binding it replaced changes nothing,
      however many inputs have come in since. */
  lemma NoCrossTalk(s: Player, tracks: seq<Track>, track: Track, ins: seq<Input>, e: Event)
    requires AllWellFormed(ins)
    ensures var r := Run(Rebind(s, tracks, track), ins);
      Deliver(r, Tagged(s.generation, e)) == r
  {
  }

  /** After the binding's cleanup, no event changes anything. */
  lemma TeardownSilencesEvents(s: Player, e: Tagged)
    ensures Deliver(Teardown(s), e) == Teardown(s)
  {
  }

  /** Toggling twice restores the player exactly when the rendered playing flag agrees with
      the element; it need not, because a change of track keeps the flag while the element
      reloads paused. */
  lemma TogglePlayTwice(s: Player)
    ensures TogglePlay(TogglePlay(s)) == s <==> s.isPlaying == !s.audio.paused
  {
  }

  /** Skipping while playing keeps the rendered flag on while the reloaded element is paused,
      until the new track's metadata starts it. */
  lemma SkipKeepsPlayingFlag(s: Player)
    requires s.isPlaying
    requires CurrentIndex(s) < |s.tracks| - 1 && s.tracks[CurrentIndex(s) + 1] != s.track
    ensures HandleNext(s).isPlaying && HandleNext(s).audio.paused && HandleNext(s).isLoading
  {
  }

  /** Toggling mute twice restores the player exactly when the element's muted flag mirrors
      the rendered one (as it does in every synced state); the volume is never touched. */
  lemma ToggleMuteTwice(s: Player)
    ensures ToggleMute(ToggleMute(s)) == s <==> s.muted == s.audio.muted
    ensures ToggleMute(s).volume == s.volume
  {
  }

  /** With unique ids, next moves the current position one on, from anywhere before the end;
      from a track not in the list it moves to the first. */
  lemma NextAdvancesIndex(s: Player)
    requires UniqueIds(s.tracks)
    requires CurrentIndex(s) < |s.tracks| - 1
    ensures CurrentIndex(HandleNext(s)) == CurrentIndex(s) + 1
    ensures CurrentIndex(s) == -1 ==> HandleNext(s).track == s.tracks[0]
  {
    var i := CurrentIndex(s);
    IndexOfUnique(s.tracks, i + 1);
    assert s.tracks[i + 1] != s.track;
  }

  /** With unique ids, previous moves the current position one back from anywhere after
      the start. */
  lemma PreviousRetreatsIndex(s: Player)
    requires UniqueIds(s.tracks)
    requires CurrentIndex(s) > 0
    ensures CurrentIndex(HandlePrevious(s)) == CurrentIndex(s) - 1
  {
    var i := CurrentIndex(s);
    IndexOfUnique(s.tracks, i - 1);
    assert s.tracks[i - 1] != s.track;
  }

  /** At either end of the list the corresponding skip does nothing. */
  lemma SkipAtBoundaries(s: Player)
    ensures CurrentIndex(s) == |s.tracks| - 1 ==> HandleNext(s) == s
    ensures CurrentIndex(s) == 0 ==> HandlePrevious(s) == s
    ensures |s.tracks| == 0 ==> HandleNext(s) == s && HandlePrevious(s) == s
  {
  }

  /** Auto-advance: with unique ids, a list of three tracks, the first one playing and its
      `ended` event arriving, the second track is bound with progress and duration reset
      before its metadata; its metadata then starts it. */
  lemma EndedAdvancesToNextTrack(s: Player, d: real)
    requires UniqueIds(s.tracks) && |s.tracks| == 3 && s.track == s.tracks[0]
    requires s.listening && s.isPlaying
    requires 0.0 < d
    ensures var a := Deliver(s, Tagged(s.generation, Ended));
      && a.track == s.tracks[1] && CurrentIndex(a) == 1
      && a.isLoading && a.progress == 0.0 && a.duration == 0.0 && !a.isPlaying
      && var b := Deliver(a, Tagged(a.generation, LoadedMetadata(Finite(d))));
      b.isPlaying && !b.isLoading && b.duration == d && b.track == s.tracks[1]
  {
    IndexOfUnique(s.tracks, 0);
    IndexOfUnique(s.tracks, 1);
    assert s.tracks[1] != s.track;
  }

  /** Volume then mute then volume: muting keeps 0.6, and a later positive volume unmutes. */
  lemma VolumeThenMuteThenVolume(s: Player)
    requires !s.muted
    ensures var a := ToggleMute(HandleVolumeChange(s, [0.6]));
      a.volume == 0.6 && a.muted
      && HandleVolumeChange(a, [0.2]).volume == 0.2 && !HandleVolumeChange(a, [0.2]).muted
  {
  }

  /** The progress bar passes out-of-range ratios through: a click past the bar's end sets
      progress above 1. */
  lemma SeekIsNotClamped(s: Player)
    ensures ProgressBarClick(s, 150.0, 100.0).progress == 1.5
  {
  }

  /** While the element knows its duration and reports a time within it, progress is a ratio
      in [0, 1]. */
  lemma ProgressIsRatio(s: Player, t: real)
    requires s.audio.duration.Finite? && 0.0 < s.audio.duration.value
    requires 0.0 <= t <= s.audio.duration.value
    ensures 0.0 <= OnTimeUpdate(s, t).progress <= 1.0
  {
    var d := s.audio.duration.value;
    assert ProgressDivisor(s) == d;
    assert OnTimeUpdate(s, t).progress == t / d;
    DivAtMostOne(t, d);
  }

  /** A time within a positive duration, divided by it, is a ratio. */
  lemma DivAtMostOne(t: real, d: real)
    requires 0.0 <= t <= d && 0.0 < d
    ensures 0.0 <= t / d <= 1.0
  {
    var q := t / d;
    assert q * d == t;
    assert (q - 1.0) * d == q * d - d;
    NonPositiveFactor(q - 1.0, d);
  }

  lemma NonPositiveFactor(x: real, d: real)
    requires d > 0.0 && x * d <= 0.0
    ensures x <= 0.0
  {
  }

  /** Once metadata with a non-negative duration has arrived, the total-time label reads back
      as its whole seconds. */
  lemma DurationLabelAfterMetadata(s: Player, d: real)
    requires 0.0 <= d
    ensures ReadClock(DurationLabel(OnLoadedMetadata(s, Finite(d)))) == Some(Floor(d))
  {
  }

  /** While the rendered duration is the element's (positive) duration, the elapsed label
      after a time update reads back as the whole seconds of that time. */
  lemma ElapsedLabelAfterTimeUpdate(s: Player, t: real)
    requires s.audio.duration == Finite(s.duration) && 0.0 < s.duration
    requires 0.0 <= t
    ensures ReadClock(ElapsedLabel(OnTimeUpdate(s, t))) == Some(Floor(t))
  {
    var r := OnTimeUpdate(s, t);
    assert r.progress == t / s.duration && r.duration == s.duration;
    DivTimes(t, s.duration, s.duration);
    assert ElapsedSeconds(r) == t;
    ElapsedReads(r);
  }

  /** After the element revises its duration to `e`, the elapsed label scales the time by
      the rendered snapshot `d` over `e`: progress is divided by the element's duration but
      multiplied back by the rendered one. */
  lemma ElapsedLabelUsesSnapshot(s: Player, d: real, e: real, t: real)
    requires 0.0 < d && 0.0 < e && 0.0 <= t
    ensures var r := OnTimeUpdate(OnDurationChange(OnLoadedMetadata(s, Finite(d)), Finite(e)), t);
      r.duration == d && r.progress == t / e
      && ReadClock(ElapsedLabel(r)) == Some(Floor(t / e * d))
  {
    var r := OnTimeUpdate(OnDurationChange(OnLoadedMetadata(s, Finite(d)), Finite(e)), t);
    assert r.duration == d && r.progress == t / e;
    DivTimes(t, e, d);
    assert ElapsedSeconds(r) == t / e * d;
    ElapsedReads(r);
  }

  /** A non-negative elapsed time reads back from its label as its whole seconds. */
  lemma ElapsedReads(s: Player)
    requires 0.0 <= ElapsedSeconds(s)
    ensures ReadClock(ElapsedLabel(s)) == Some(Floor(ElapsedSeconds(s)))
  {
    LabelReads(ElapsedSeconds(s));
  }

  lemma LabelReads(x: real)
    requires 0.0 <= x
    ensures ReadClock(FormatTime(Finite(x))) == Some(Floor(x))
  {
  }

  /** A non-negative time over a positive duration, times a positive snapshot, is
      non-negative, and is the time itself when the two durations agree. */
  lemma DivTimes(t: real, e: real, d: real)
    requires 0.0 <= t && 0.0 < e && 0.0 < d
    ensures 0.0 <= t / e * d
    ensures e == d ==> t / e * d == t
  {
  }

  /** Metadata says 100 seconds, the element then revises it to 200: at 100 seconds in,
      progress is one half and the elapsed label shows 50 seconds against a total of 100. */
  lemma DurationDriftExample(s: Player)
    ensures var r := OnTimeUpdate(OnDurationChange(OnLoadedMetadata(s, Finite(100.0)), Finite(200.0)), 100.0);
      r.progress == 0.5 && ElapsedSeconds(r) == 50.0 && r.duration == 100.0
  {
    var r := OnTimeUpdate(OnDurationChange(OnLoadedMetadata(s, Finite(100.0)), Finite(200.0)), 100.0);
    assert r.progress * 200.0 == 100.0;
  }
}

=== FILE: js_number.dfy ===
/**
 * The slice of JavaScript number semantics the player relies on: a number is
 * either not-a-number or a finite real (infinities are not modelled), `x || d`
 * treats NaN and zero as falsy, and `%` truncates toward zero.
 */
module JsNumber {

  /** A JavaScript number: NaN or a finite value. */
  datatype Num = NaN | Finite(value: real)

  /** True when `x` is falsy in JavaScript (NaN or zero). */
  predicate Falsy(x: Num)
  {
    x.NaN? || x.value == 0.0
  }

  /** `x || d`: the value of `x`, unless it is falsy, in which case `d`. */
  function OrElse(x: Num, d: real): (r: real)
    ensures Falsy(x) ==> r == d
    ensures !Falsy(x) ==> Finite(r) == x
  {
    if Falsy(x) then d else x.value
  }

  /** `Math.floor` on a finite number. */
  function Floor(x: real): int
  {
    x.Floor
  }

  /** Truncation toward zero, the rounding JavaScript's `%` uses. */
  function Trunc(x: real): (r: int)
    ensures 0.0 <= x ==> r == Floor(x)
    ensures x < 0.0 ==> r == -Floor(-x)
  {
    if 0.0 <= x then x.Floor else -((-x).Floor)
  }

  /** JavaScript's `a % 60` on a finite number: the remainder takes the sign of `a`. */
  function Rem60(a: real): (r: real)
    ensures 0.0 <= a ==> 0.0 <= r < 60.0
    ensures a < 0.0 ==> -60.0 < r <= 0.0
    ensures Trunc(a / 60.0) as real * 60.0 + r == a
  {
    a - 60.0 * (Trunc(a / 60.0) as real)
  }

  /** `Math.min(Math.max(x, 0), 1)`: the ratio clamped into [0, 1]. */
  function Clamp01(x: real): (r: real)
    ensures 0.0 <= r <= 1.0
    ensures 0.0 <= x <= 1.0 ==> r == x
    ensures x < 0.0 ==> r == 0.0
    ensures 1.0 < x ==> r == 1.0
  {
    var lower := if x > 0.0 then x else 0.0;
    if lower < 1.0 then lower else 1.0
  }

  /** Subtracting a whole number shifts the floor by that number. */
  lemma FloorShift(x: real, n: int)
    ensures Floor(x - n as real) == Floor(x) - n
  {
  }
}

=== FILE: navbar.dfy ===
/**
 * The site header: the navigation items a visitor sees, filtered by whether their email
 * is an allowed uploader, and the mobile menu's open flag.
 */
module Navbar {
  import opened Wrappers

  /** A link in the header. `caption` is the item's `label`, renamed because `label` is a
      Dafny keyword. */
  datatype NavItem = NavItem(href: string, caption: string)

  const Library: NavItem := NavItem("/library", "Library")
  const Upload: NavItem := NavItem("/upload", "Upload")
  const History: NavItem := NavItem("/history", "History")
  const Favourites: NavItem := NavItem("/favorite", "Favourites")
  const Personal: NavItem := NavItem("/personal", "Personal")

  /** Every item, in display order. */
  const AllNavItems: seq<NavItem> := [Library, Upload, History, Favourites, Personal]

  /** The emails allowed to upload. */
  const AllowedUploaders: set<string> :=
    {"prathamesh10082004@gmail.com", "prathameshcorporations@gmail.com", "prathamesh16052003@gmail.com"}

  /** `userEmail && ALLOWED_UPLOADERS.has(userEmail)`: a null or empty email is falsy. */
  predicate MayUpload(email: Option<string>)
  {
    email.Some? && email.value != "" && email.value in AllowedUploaders
  }

  /** The items only uploaders see. */
  predicate Restricted(item: NavItem)
  {
    item.href == "/upload" || item.href == "/personal"
  }

  /** The filter's test for one item. */
  predicate Keep(item: NavItem, email: Option<string>)
  {
    Restricted(item) ==> MayUpload(email)
  }

  /** `a` is `b` with some elements removed, the rest in the same order. */
  predicate IsSubsequence(a: seq<NavItem>, b: seq<NavItem>)
    decreases |b|
  {
    if |a| == 0 then true
    else if |b| == 0 then false
    else if a[0] == b[0] then IsSubsequence(a[1..], b[1..])
    else IsSubsequence(a, b[1..])
  }

  /** `items.filter(...)` with the header's test. */
  function Filter(items: seq<NavItem>, email: Option<string>): seq<NavItem>
    decreases |items|
  {
    if |items| == 0 then []
    else if Keep(items[0], email) then [items[0]] + Filter(items[1..], email)
    else Filter(items[1..], email)
  }

  /** The filter keeps exactly the items that pass the test, in their original order. */
  lemma {:induction false} FilterKeepsExactly(items: seq<NavItem>, email: Option<string>)
    ensures forall x :: x in Filter(items, email) <==> x in items && Keep(x, email)
    ensures IsSubsequence(Filter(items, email), items)
    decreases |items|
  {
    if |items| > 0 {
      FilterKeepsExactly(items[1..], email);
      var r := Filter(items, email);
      assert forall x :: x in items <==> x == items[0] || x in items[1..];
      if !Keep(items[0], email) && |r| > 0 {
        assert r[0] in r;
      }
    }
  }

  /** The items the header shows for a visitor with the given stored email. */
  function NavItems(email: Option<string>): seq<NavItem>
  {
    Filter(AllNavItems, email)
  }

  /** An empty email is never an uploader: only membership in the set matters. */
  lemma MayUploadIsMembership(email: Option<string>)
    ensures MayUpload(email) <==> email.Some? && email.value in AllowedUploaders
  {
  }

  /** Library, History and Favourites are shown whatever the email; Upload and Personal
      exactly to allowed uploaders; nothing else is ever shown, and the order is kept. */
  lemma NavItemsShown(email: Option<string>)
    ensures Library in NavItems(email) && History in NavItems(email) && Favourites in NavItems(email)
    ensures Upload in NavItems(email) <==> MayUpload(email)
    ensures Personal in NavItems(email) <==> MayUpload(email)
    ensures forall x :: x in NavItems(email) ==> x in AllNavItems
    ensures IsSubsequence(NavItems(email), AllNavItems)
  {
    FilterKeepsExactly(AllNavItems, email);
    KeepOfItems(email);
  }

  /** Without an email (or with an unknown one) the header shows three items, in order. */
  lemma GuestItems(email: Option<string>)
    requires !MayUpload(email)
    ensures NavItems(email) == [Library, History, Favourites]
  {
    UnfoldNavItems(email);
  }

  /** An allowed uploader sees all five items. */
  lemma UploaderItems(email: Option<string>)
    requires MayUpload(email)
    ensures NavItems(email) == AllNavItems
  {
    UnfoldNavItems(email);
  }

  /** The filter over the five items. */
  lemma UnfoldNavItems(email: Option<string>)
    ensures NavItems(email) ==
      if MayUpload(email) then [Library, Upload, History, Favourites, Personal]
      else [Library, History, Favourites]
  {
    KeepOfItems(email);
    LastFour(email);
    FilterCons(Library, [Upload, History, Favourites, Personal], email);
    assert AllNavItems == [Library] + [Upload, History, Favourites, Personal];
  }

  lemma LastFour(email: Option<string>)
    ensures Filter([Upload, History, Favourites, Personal], email) ==
      if MayUpload(email) then [Upload, History, Favourites, Personal] else [History, Favourites]
  {
    var rest: seq<NavItem> := [History, Favourites, Personal];
    assert [Upload] + rest == [Upload, History, Favourites, Personal];
    KeepOfItems(email);
    PublicTail(email);
    FilterCons(Upload, rest, email);
    if MayUpload(email) {
      assert Filter(rest, email) == [History, Favourites] + [Personal];
      assert [Upload] + ([History, Favourites] + [Personal]) == [Upload, History, Favourites, Personal];
    } else {
      assert Filter(rest, email) == [History, Favourites] + [];
      assert [History, Favourites] + [] == [History, Favourites];
    }
  }

  /** The last three items: History and Favourites always, Personal for uploaders. */
  lemma PublicTail(email: Option<string>)
    ensures Filter([History, Favourites, Personal], email) ==
      [History, Favourites] + (if MayUpload(email) then [Personal] else [])
  {
    KeepOfItems(email);
    LastItem(email);
    FilterCons(Favourites, [Personal], email);
    FilterCons(History, [Favourites, Personal], email);
  }

  lemma LastItem(email: Option<string>)
    ensures Filter([Personal], email) == if MayUpload(email) then [Personal] else []
  {
    KeepOfItems(email);
    FilterCons(Personal, [], email);
  }

  /** Which of the five items the filter keeps. */
  lemma KeepOfItems(email: Option<string>)
    ensures Keep(Library, email) && Keep(History, email) && Keep(Favourites, email)
    ensures Keep(Upload, email) == MayUpload(email) && Keep(Personal, email) == MayUpload(email)
  {
    assert !Restricted(Library) && !Restricted(History) && !Restricted(Favourites);
    assert Restricted(Upload) && Restricted(Personal);
  }

  lemma FilterCons(x: NavItem, rest: seq<NavItem>, email: Option<string>)
    ensures Filter([x] + rest, email) ==
      (if Keep(x, email) then [x] + Filter(rest, email) else Filter(rest, email))
  {
    assert ([x] + rest)[1..] == rest;
  }

  /** What can happen to the mobile menu. */
  datatype MenuEvent =
    | ToggleButton
    | MouseDown(insideHeader: bool)
    | LinkClick

  /** `toggleMobileMenu` flips the flag. */
  function ToggleMobileMenu(open: bool): (r: bool)
    ensures r != open
  {
    !open
  }

  /** The document's mousedown listener: a press outside the header closes the menu, a press
      inside leaves it as it is. */
  function OnMouseDown(open: bool, insideHeader: bool): (r: bool)
    ensures !insideHeader ==> !r
    ensures insideHeader ==> r == open
  {
    if insideHeader then open else false
  }

  /** Following a mobile link closes the menu. */
  function OnLinkClick(open: bool): (r: bool)
    ensures !r
  {
    false
  }

  /** Whether the event closes the menu whatever its state. */
  predicate Closes(e: MenuEvent)
  {
    e.LinkClick? || (e.MouseDown? && !e.insideHeader)
  }

  function ApplyMenu(open: bool, e: MenuEvent): bool
  {
    match e
    case ToggleButton => ToggleMobileMenu(open)
    case MouseDown(inside) => OnMouseDown(open, inside)
    case LinkClick => OnLinkClick(open)
  }

  /** The menu after a sequence of events, in order. */
  function MenuAfter(open: bool, es: seq<MenuEvent>): bool
    decreases |es|
  {
    if |es| == 0 then open else MenuAfter(ApplyMenu(open, es[0]), es[1..])
  }

  /** How many times the toggle button was pressed. */
  function Toggles(es: seq<MenuEvent>): nat
    decreases |es|
  {
    if |es| == 0 then 0 else (if es[0].ToggleButton? then 1 else 0) + Toggles(es[1..])
  }

  /** Toggling twice is the identity, and following a link is idempotent. */
  lemma MenuToggleTwice(open: bool)
    ensures ToggleMobileMenu(ToggleMobileMenu(open)) == open
    ensures OnLinkClick(OnLinkClick(open)) == OnLinkClick(open)
  {
  }

  /** Without any closing event, the menu is open exactly when it started open and was
      toggled an even number of times, or started closed and was toggled an odd number. */
  lemma {:induction false} MenuParity(open: bool, es: seq<MenuEvent>)
    requires forall k :: 0 <= k < |es| ==> !Closes(es[k])
    ensures MenuAfter(open, es) == (open != (Toggles(es) % 2 == 1))
    decreases |es|
  {
    if |es| > 0 {
      MenuParity(ApplyMenu(open, es[0]), es[1..]);
    }
  }

  /** After a closing event the menu is closed, whatever came before. */
  lemma {:induction false} MenuClosedAfterClosing(open: bool, before: seq<MenuEvent>, e: MenuEvent)
    requires Closes(e)
    ensures !MenuAfter(open, before + [e])
    decreases |before|
  {
    if |before| > 0 {
      assert (before + [e])[1..] == before[1..] + [e];
      MenuClosedAfterClosing(ApplyMenu(open, before[0]), before[1..], e);
    }
  }
}

=== FILE: recommend_route.dfy ===
/**
 * The recommendation link handler: a request carrying a track id and an email is
 * redirected to the player for that track, anything else to the not-found page.
 */
module RecommendRoute {
  import opened Wrappers

  const NotFoundUrl: string := "https://mp3-player-web.vercel.app/404"
  const PlayerPrefix: string := "https://mp3-player-web.vercel.app/player?trackId="
  const EmailKey: string := "&userEmail="

  /** A query parameter is usable when it is present and non-empty (JavaScript truthiness). */
  predicate Present(p: Option<string>)
  {
    p.Some? && p.value != ""
  }

  /** The player URL with both values interpolated as they are, without re-encoding. */
  function PlayerUrl(trackId: string, email: string): string
  {
    PlayerPrefix + trackId + EmailKey + email
  }

  /** The redirect target of `GET`: the not-found page exactly when either parameter is
      missing or empty, otherwise the player URL for the two values. */
  function RedirectTarget(trackId: Option<string>, userEmail: Option<string>): (r: string)
    ensures r == NotFoundUrl <==> !Present(trackId) || !Present(userEmail)
    ensures Present(trackId) && Present(userEmail) ==> r == PlayerUrl(trackId.value, userEmail.value)
  {
    if !Present(trackId) || !Present(userEmail) then NotFoundUrl
    else
      PlayerUrlIsNotNotFound(trackId.value, userEmail.value);
      PlayerUrl(trackId.value, userEmail.value)
  }

  /** The two targets never coincide: they part at the first character after the host. */
  lemma PlayerUrlIsNotNotFound(trackId: string, email: string)
    ensures PlayerUrl(trackId, email) != NotFoundUrl
  {
    assert PlayerUrl(trackId, email)[34] == PlayerPrefix[34] == 'p';
    assert NotFoundUrl[34] == '4';
  }

  /** The first position of `c` in `s`, or -1. */
  function FindChar(s: string, c: char): (r: int)
    ensures -1 <= r < |s|
    ensures r == -1 <==> c !in s
    ensures 0 <= r ==> s[r] == c && c !in s[..r]
    decreases |s|
  {
    if |s| == 0 then -1
    else if s[0] == c then 0
    else
      var k := FindChar(s[1..], c);
      assert s[1..][..k + 1] == s[1..k + 2];
      if k == -1 then -1 else k + 1
  }

  /** Reads the track id and email back out of a player URL, splitting at the first '&'. */
  function ReadPlayerUrl(u: string): Option<(string, string)>
  {
    if |u| >= |PlayerPrefix| && u[..|PlayerPrefix|] == PlayerPrefix then
      var rest := u[|PlayerPrefix|..];
      var k := FindChar(rest, '&');
      if 0 <= k && k + |EmailKey| <= |rest| && rest[k..k + |EmailKey|] == EmailKey then
        Some((rest[..k], rest[k + |EmailKey|..]))
      else None
    else None
  }

  /** A track id without '&' and any email come back unchanged from the player URL: both are
      placed in it verbatim. */
  lemma PlayerUrlRoundTrip(trackId: string, email: string)
    requires '&' !in trackId
    ensures ReadPlayerUrl(PlayerUrl(trackId, email)) == Some((trackId, email))
  {
    var u := PlayerUrl(trackId, email);
    var rest := trackId + EmailKey + email;
    assert u == PlayerPrefix + rest;
    assert u[..|PlayerPrefix|] == PlayerPrefix;
    assert u[|PlayerPrefix|..] == rest;
    var k := FindChar(rest, '&');
    assert rest[|trackId|] == '&';
    assert rest[..|trackId|] == trackId;
    assert k == |trackId|;
    assert rest[k..k + |EmailKey|] == EmailKey;
    assert rest[k + |EmailKey|..] == email;
  }

  /** Both parameters present: the redirect leads to the player and carries both values, the
      email under `userEmail`, the name the route writes. */
  lemma RedirectCarriesParameters(trackId: string, email: string)
    requires trackId != "" && email != "" && '&' !in trackId
    ensures ReadPlayerUrl(RedirectTarget(Some(trackId), Some(email))) == Some((trackId, email))
  {
    PlayerUrlRoundTrip(trackId, email);
  }
}

=== FILE: time_format.dfy ===
/**
 * The player's `formatTime`: a number of seconds shown as minutes, a colon and
 * a two-character seconds field. `ReadClock` is the independent reading of
 * such a label back into whole seconds, used to state what the label means.
 */
module TimeFormat {
  import opened Wrappers
  import opened JsNumber

  /** The decimal digit character for `d`. */
  function DigitChar(d: nat): char
    requires d < 10
  {
    ('0' as int + d) as char
  }

  /** The value of a decimal digit character, or None for any other character. */
  function DigitValue(c: char): (r: Option<nat>)
    ensures r.Some? ==> r.value < 10 && DigitChar(r.value) == c
  {
    if '0' <= c <= '9' then Some(c as int - '0' as int) else None
  }

  /** Decimal rendering of a natural number, without leading zeros. */
  function NatToString(n: nat): (r: string)
    ensures |r| >= 1
    ensures n < 10 <==> |r| == 1
    decreases n
  {
    if n < 10 then [DigitChar(n)] else NatToString(n / 10) + [DigitChar(n % 10)]
  }

  /** `Number.prototype.toString` on an integer: a minus sign, then the digits. */
  function IntToString(i: int): string
  {
    if i < 0 then "-" + NatToString(-i) else NatToString(i)
  }

  /** `s.padStart(2, '0')`: strings shorter than two characters get leading zeros. */
  function PadStart2(s: string): (r: string)
    ensures |s| >= 2 ==> r == s
    ensures |s| < 2 ==> |r| == 2 && r[2 - |s|..] == s
    ensures forall i :: 0 <= i < 2 - |s| ==> r[i] == '0'
  {
    if |s| >= 2 then s else if |s| == 1 then ['0'] + s else "00"
  }

  /** `${minutes}:${seconds.toString().padStart(2, '0')}` */
  function Clock(minutes: int, seconds: int): string
  {
    IntToString(minutes) + ":" + PadStart2(IntToString(seconds))
  }

  /** Reads a string of decimal digits; None if it is empty or holds any other character. */
  function ParseNat(s: string): (r: Option<nat>)
    decreases |s|
  {
    if |s| == 0 then None
    else if |s| == 1 then DigitValue(s[0])
    else
      match (ParseNat(s[..|s| - 1]), DigitValue(s[|s| - 1]))
      case (Some(high), Some(low)) => Some(high * 10 + low)
      case _ => None
  }

  /** Reads a "m:ss" label (any number of minute digits, exactly two second digits below 60)
      as a total number of seconds. */
  function ReadClock(s: string): Option<nat>
  {
    if |s| >= 4 && s[|s| - 3] == ':' then
      match (ParseNat(s[..|s| - 3]), ParseNat(s[|s| - 2..]))
      case (Some(m), Some(sec)) => if sec < 60 then Some(m * 60 + sec) else None
      case _ => None
    else None
  }

  /** The formatter: "0:00" for NaN, otherwise whole minutes (`Math.floor(t / 60)`) and
      whole seconds of JavaScript's `t % 60`. For a non-negative time the label reads back
      as the whole number of seconds it was made from. */
  function FormatTime(t: Num): (r: string)
    ensures t.NaN? ==> r == "0:00"
    ensures t.Finite? && 0.0 <= t.value ==> ReadClock(r) == Some(Floor(t.value))
  {
    match t
    case NaN => "0:00"
    case Finite(x) =>
      if 0.0 <= x then
        ClockOfSeconds(x);
        Clock(Floor(x / 60.0), Floor(Rem60(x)))
      else
        Clock(Floor(x / 60.0), Floor(Rem60(x)))
  }

  /** Reading the decimal rendering of `n` gives back `n`. */
  lemma {:induction false} ParseNatToString(n: nat)
    ensures ParseNat(NatToString(n)) == Some(n)
    decreases n
  {
    if n >= 10 {
      var s := NatToString(n);
      var high := NatToString(n / 10);
      assert s == high + [DigitChar(n % 10)];
      assert s[..|s| - 1] == high;
      ParseNatToString(n / 10);
      assert DigitValue(s[|s| - 1]) == Some(n % 10);
    }
  }

  /** A seconds value below 60 renders as exactly two digits that read back as itself. */
  lemma SecondsField(sec: nat)
    requires sec < 60
    ensures |PadStart2(IntToString(sec))| == 2
    ensures ParseNat(PadStart2(IntToString(sec))) == Some(sec)
  {
    var digits := NatToString(sec);
    ParseNatToString(sec);
    if sec < 10 {
      var p := PadStart2(digits);
      assert p == ['0'] + digits;
      assert p[..1] == ['0'];
      assert p[1] == DigitChar(sec);
    } else {
      assert NatToString(sec / 10) == [DigitChar(sec / 10)];
    }
  }

  /** The clock for `m` minutes and `sec < 60` seconds: the minutes in decimal, a colon, and
      a two-character seconds field. */
  lemma ClockFields(m: nat, sec: nat)
    requires sec < 60
    ensures |Clock(m, sec)| >= 4
    ensures Clock(m, sec)[|Clock(m, sec)| - 3] == ':'
    ensures Clock(m, sec)[..|Clock(m, sec)| - 3] == NatToString(m)
    ensures ParseNat(Clock(m, sec)[|Clock(m, sec)| - 2..]) == Some(sec)
  {
    var ms := NatToString(m);
    var ss := PadStart2(IntToString(sec));
    SecondsField(sec);
    var s := Clock(m, sec);
    assert s == ms + ":" + ss;
    assert s[..|s| - 3] == ms;
    assert s[|s| - 2..] == ss;
  }

  /** The clock for `m` minutes and `sec < 60` seconds reads back as `m * 60 + sec`. */
  lemma ReadClockOf(m: nat, sec: nat)
    requires sec < 60
    ensures ReadClock(Clock(m, sec)) == Some(m * 60 + sec)
  {
    ClockFields(m, sec);
    ParseNatToString(m);
    ReadClockParts(Clock(m, sec), m, sec);
  }

  /** A label whose minutes field reads as `m` and whose seconds field reads as `sec < 60`
      reads as `m * 60 + sec`. */
  lemma ReadClockParts(s: string, m: nat, sec: nat)
    requires |s| >= 4 && s[|s| - 3] == ':' && sec < 60
    requires ParseNat(s[..|s| - 3]) == Some(m) && ParseNat(s[|s| - 2..]) == Some(sec)
    ensures ReadClock(s) == Some(m * 60 + sec)
  {
  }

  /** For a non-negative time, the minutes are `Floor(x / 60)` and the seconds field is the
      rest of the whole seconds, below 60. */
  lemma ClockOfSeconds(x: real)
    requires 0.0 <= x
    ensures 0 <= Floor(x / 60.0) && 0 <= Floor(Rem60(x)) < 60
    ensures Floor(x / 60.0) * 60 + Floor(Rem60(x)) == Floor(x)
    ensures ReadClock(Clock(Floor(x / 60.0), Floor(Rem60(x)))) == Some(Floor(x))
  {
    MinutesAndSeconds(x);
    ReadClockOf(Floor(x / 60.0), Floor(Rem60(x)));
  }

  /** The arithmetic half: whole minutes times 60 plus whole seconds is the whole time. */
  lemma MinutesAndSeconds(x: real)
    requires 0.0 <= x
    ensures 0 <= Floor(x / 60.0) && 0 <= Floor(Rem60(x)) < 60
    ensures Floor(x / 60.0) * 60 + Floor(Rem60(x)) == Floor(x)
  {
    var m := Floor(x / 60.0);
    assert Trunc(x / 60.0) == m;
    assert Rem60(x) == x - (m * 60) as real;
    FloorShift(x, m * 60);
  }

  /** For a non-negative time the seconds field is two characters and below 60, and the
      minutes field is `Floor(x / 60)` written in decimal. */
  lemma FormatTimeFields(x: real)
    requires 0.0 <= x
    ensures |FormatTime(Finite(x))| >= 4
    ensures FormatTime(Finite(x))[|FormatTime(Finite(x))| - 3] == ':'
    ensures FormatTime(Finite(x))[..|FormatTime(Finite(x))| - 3] == NatToString(Floor(x / 60.0))
    ensures ParseNat(FormatTime(Finite(x))[|FormatTime(Finite(x))| - 2..]) == Some(Floor(x) % 60)
  {
    var m := Floor(x / 60.0);
    var sec := Floor(Rem60(x));
    MinutesAndSeconds(x);
    SplitSeconds(Floor(x), m, sec);
    FormatTimeIsClock(x);
    ClockFields(m, sec);
  }

  /** A non-negative time is written as its whole minutes and the rest of its seconds. */
  lemma FormatTimeIsClock(x: real)
    requires 0.0 <= x
    ensures FormatTime(Finite(x)) == Clock(Floor(x / 60.0), Floor(Rem60(x)))
  {
  }

  /** Whole minutes and a seconds part below 60 are the quotient and remainder by 60. */
  lemma SplitSeconds(total: int, m: int, sec: int)
    requires 0 <= sec < 60 && m * 60 + sec == total
    ensures total % 60 == sec && total / 60 == m
  {
  }

  /** 125 seconds shows as "2:05". */
  lemma FormatTimeExample()
    ensures FormatTime(Finite(125.0)) == "2:05"
  {
    assert Floor(125.0 / 60.0) == 2;
    assert Rem60(125.0) == 5.0;
    assert NatToString(2) == "2";
    assert NatToString(5) == "5";
    assert PadStart2("5") == "05";
  }

  /** Zero and NaN both show as "0:00". */
  lemma FormatTimeZero()
    ensures FormatTime(Finite(0.0)) == "0:00"
    ensures FormatTime(NaN) == "0:00"
  {
    assert Floor(0.0 / 60.0) == 0;
    assert Rem60(0.0) == 0.0;
    assert NatToString(0) == "0";
    assert PadStart2("0") == "00";
  }

  /** A negative time follows JavaScript's floor and truncating remainder: -5 seconds shows
      as "-1:-5". */
  lemma FormatTimeNegative()
    ensures FormatTime(Finite(-5.0)) == "-1:-5"
  {
    assert Floor(-5.0 / 60.0) == -1;
    assert Floor(Rem60(-5.0)) == -5;
    assert NatToString(1) == "1";
    assert NatToString(5) == "5";
  }
}

=== FILE: tracks.dfy ===
/** Track descriptors and the `findIndex` lookup that locates the current track. */
module Tracks {

  /** A track; only its identity takes part in playback logic. */
  datatype Track = Track(id: string)

  /** No two tracks of the sequence share an id. */
  predicate UniqueIds(ts: seq<Track>)
  {
    forall i, j :: 0 <= i < j < |ts| ==> ts[i].id != ts[j].id
  }

  /** `ts.findIndex(t => t.id === id)`: the first position holding `id`, or -1. */
  function IndexOf(ts: seq<Track>, id: string): (r: int)
    ensures -1 <= r < |ts|
    ensures r == -1 <==> forall j :: 0 <= j < |ts| ==> ts[j].id != id
    ensures 0 <= r ==> ts[r].id == id
    ensures 0 <= r ==> forall j :: 0 <= j < r ==> ts[j].id != id
    decreases |ts|
  {
    if |ts| == 0 then -1
    else if ts[0].id == id then 0
    else
      var k := IndexOf(ts[1..], id);
      if k == -1 then -1 else k + 1
  }

  /** With unique ids, looking up the id found at position `i` gives back `i`. */
  lemma IndexOfUnique(ts: seq<Track>, i: int)
    requires UniqueIds(ts)
    requires 0 <= i < |ts|
    ensures IndexOf(ts, ts[i].id) == i
  {
  }
}

=== FILE: transport.dfy ===
/**
 * The playback transport controller of the audio player, as pure transitions over an
 * immutable state. The state holds both the view state the component renders and the
 * state of the audio element it drives, because the handlers read one or the other:
 * toggling play consults the element's `paused` flag, a time update divides by the
 * element's own duration, while a seek multiplies by the rendered duration.
 *
 * Listener teardown is encoded by a binding generation: every binding listens under the
 * current generation, teardown detaches the listeners and advances the generation, and
 * an event is handled only when it carries the generation that is still listening.
 */
module Transport {
  import opened Wrappers
  import opened JsNumber
  import opened Tracks

  /** What the audio element holds: the stream it loaded, its paused flag, its current
      time, the duration it reports (NaN until metadata), its volume and muted flag. */
  datatype Audio = Audio(
    source: Option<string>,
    paused: bool,
    currentTime: real,
    duration: Num,
    volume: real,
    muted: bool)

  /** The whole player: the track list and the selected track (props), the rendered view
      state, the binding generation with whether its listeners are attached, and the
      audio element. */
  datatype Player = Player(
    tracks: seq<Track>,
    track: Track,
    isPlaying: bool,
    volume: real,
    muted: bool,
    progress: real,
    duration: real,
    isLoading: bool,
    generation: nat,
    listening: bool,
    audio: Audio)

  /** Something the audio element reports. */
  datatype Event =
    | LoadedMetadata(reported: Num)
    | TimeUpdate(currentTime: real)
    | Ended

  /** An event together with the generation of the binding whose listener receives it. */
  datatype Tagged = Tagged(generation: nat, event: Event)

  /** `trackList.findIndex(t => t.id === track.id)` */
  function CurrentIndex(s: Player): int
  {
    IndexOf(s.tracks, s.track.id)
  }

  /** The view state and the element agree: volume and muted are mirrored on the element,
      the volume is a ratio, the rendered duration stays 0 until metadata has arrived, and
      attached listeners belong to a binding of the selected track. The rendered duration is
      a snapshot taken when metadata arrives, so it need not equal the element's duration
      afterwards (see `OnDurationChange`). */
  predicate Synced(s: Player)
  {
    && s.volume == s.audio.volume
    && s.muted == s.audio.muted
    && 0.0 <= s.volume <= 1.0
    && (s.isLoading ==> s.duration == 0.0)
    && (s.listening ==> s.audio.source == Some(s.track.id))
  }

  /** The volume preference, the only state that survives a change of track. */
  predicate SamePreferences(s: Player, r: Player)
  {
    r.volume == s.volume && r.muted == s.muted && r.audio.volume == s.audio.volume && r.audio.muted == s.audio.muted
  }

  /** The same binding of the same selection. */
  predicate SameBinding(s: Player, r: Player)
  {
    && r.tracks == s.tracks && r.track == s.track
    && r.generation == s.generation && r.listening == s.listening
    && r.audio.source == s.audio.source
  }

  /** `r` is a fresh binding of `track` within `tracks`, made from `s`: the old listeners
      are gone (new generation), the loading state is reset before any metadata arrives,
      the element has reloaded and is paused, and only the volume preference and the
      playing flag carry over. */
  predicate Rebound(s: Player, r: Player, tracks: seq<Track>, track: Track)
  {
    && r.tracks == tracks && r.track == track
    && r.generation == s.generation + 1 && r.listening
    && r.isLoading && r.progress == 0.0 && r.duration == 0.0
    && r.isPlaying == s.isPlaying
    && SamePreferences(s, r)
    && r.audio.source == Some(track.id)
    && r.audio.paused && r.audio.currentTime == 0.0 && r.audio.duration == NaN
  }

  /** The state before the binding effect first runs: the hook defaults, and an element
      with no source at its default volume. */
  function Initial(tracks: seq<Track>, track: Track): Player
  {
    Player(tracks, track, false, 1.0, false, 0.0, 0.0, true, 0, false,
           Audio(None, true, 0.0, NaN, 1.0, false))
  }

  /** The binding effect's body: reset the loading state, point the element at the track's
      stream and reload it (which pauses it, rewinds it and forgets its duration), and
      attach the three listeners under the current generation. */
  function Bind(s: Player): (r: Player)
    requires !s.listening
    ensures r.listening && r.generation == s.generation
    ensures r.isLoading && r.progress == 0.0 && r.duration == 0.0
    ensures r.audio.source == Some(s.track.id) && r.audio.duration == NaN && r.audio.paused
    ensures r.audio.currentTime == 0.0
    ensures r.isPlaying == s.isPlaying && SamePreferences(s, r)
    ensures r.tracks == s.tracks && r.track == s.track
  {
    s.(isLoading := true, progress := 0.0, duration := 0.0, listening := true,
       audio := s.audio.(source := Some(s.track.id), paused := true, currentTime := 0.0, duration := NaN))
  }

  /** The effect's cleanup before it re-runs: pause the element and detach all three
      listeners. Nothing the view shows changes. */
  function Teardown(s: Player): (r: Player)
    ensures !r.listening && r.generation == s.generation + 1
    ensures r.audio.paused
    ensures r.tracks == s.tracks && r.track == s.track
    ensures r.isPlaying == s.isPlaying && r.progress == s.progress && r.duration == s.duration
    ensures r.isLoading == s.isLoading && SamePreferences(s, r)
    ensures r.audio.source == s.audio.source && r.audio.duration == s.audio.duration
    ensures r.audio.currentTime == s.audio.currentTime
  {
    s.(listening := false, generation := s.generation + 1, audio := s.audio.(paused := true))
  }

  /** Mounting with a resolved track and list runs the binding effect once. */
  function Mount(tracks: seq<Track>, track: Track): (r: Player)
    ensures Synced(r)
    ensures r.listening && r.isLoading && !r.isPlaying
    ensures r.volume == 1.0 && !r.muted && r.progress == 0.0 && r.duration == 0.0
    ensures r.tracks == tracks && r.track == track
  {
    Bind(Initial(tracks, track))
  }

  /** A change of the effect's inputs: the previous binding is torn down before the new one
      is made. */
  function Rebind(s: Player, tracks: seq<Track>, track: Track): (r: Player)
    ensures Rebound(s, r, tracks, track)
  {
    Bind(Teardown(s).(tracks := tracks, track := track))
  }

  /** `setTrack(t)`: the effect re-runs only when the track's identity changes; selecting
      the track already shown changes nothing. */
  function Select(s: Player, t: Track): (r: Player)
    ensures t == s.track ==> r == s
    ensures t != s.track ==> Rebound(s, r, s.tracks, t)
  {
    if t == s.track then s else Rebind(s, s.tracks, t)
  }

  /** The parent supplies a new track array: it is a dependency of the binding effect, so
      the current track is bound afresh even when its identity is unchanged. */
  function ReplaceTracks(s: Player, tracks: seq<Track>): (r: Player)
    ensures Rebound(s, r, tracks, s.track)
  {
    Rebind(s, tracks, s.track)
  }

  /** Metadata arrived: the rendered duration is the reported one, or 0 when it is NaN or 0;
      loading ends and playback starts on its own. */
  function OnLoadedMetadata(s: Player, reported: Num): (r: Player)
    ensures r.duration == 0.0 <==> Falsy(reported)
    ensures !Falsy(reported) ==> Finite(r.duration) == reported
    ensures r.audio.duration == reported
    ensures !r.isLoading && r.isPlaying && !r.audio.paused
    ensures r.progress == s.progress && r.audio.currentTime == s.audio.currentTime
    ensures SamePreferences(s, r) && SameBinding(s, r)
  {
    s.(duration := OrElse(reported, 0.0), isLoading := false, isPlaying := true,
       audio := s.audio.(duration := reported, paused := false))
  }

  /** The divisor a time update uses: the element's duration, or 1 when that is NaN or 0. */
  function ProgressDivisor(s: Player): (d: real)
    ensures d != 0.0
    ensures Falsy(s.audio.duration) ==> d == 1.0
    ensures !Falsy(s.audio.duration) ==> Finite(d) == s.audio.duration
  {
    OrElse(s.audio.duration, 1.0)
  }

  /** A position update: progress is the element's current time over its duration, the
      divisor never being 0; nothing else the view shows changes. */
  function OnTimeUpdate(s: Player, currentTime: real): (r: Player)
    ensures r.progress * ProgressDivisor(s) == currentTime
    ensures Falsy(s.audio.duration) ==> r.progress == currentTime
    ensures r.audio.currentTime == currentTime
    ensures r.isPlaying == s.isPlaying && r.isLoading == s.isLoading && r.duration == s.duration
    ensures r.audio.paused == s.audio.paused && r.audio.duration == s.audio.duration
    ensures SamePreferences(s, r) && SameBinding(s, r)
  {
    s.(progress := currentTime / ProgressDivisor(s), audio := s.audio.(currentTime := currentTime))
  }

  /** Playback reached the end (the element has paused itself): the view stops playing and,
      when a track follows the current position, that track is selected. */
  function OnEnded(s: Player): (r: Player)
    ensures !r.isPlaying
    ensures SamePreferences(s, r)
    ensures CurrentIndex(s) >= |s.tracks| - 1 ==>
      SameBinding(s, r) && r.progress == s.progress && r.isLoading == s.isLoading
    ensures CurrentIndex(s) < |s.tracks| - 1 && s.tracks[CurrentIndex(s) + 1] != s.track ==>
      Rebound(s.(isPlaying := false), r, s.tracks, s.tracks[CurrentIndex(s) + 1])
    ensures !(CurrentIndex(s) < |s.tracks| - 1 && s.tracks[CurrentIndex(s) + 1] != s.track) ==>
      r == s.(isPlaying := false, audio := s.audio.(paused := true))
  {
    var stopped := s.(isPlaying := false, audio := s.audio.(paused := true));
    var i := CurrentIndex(s);
    if i < |s.tracks| - 1 then Select(stopped, s.tracks[i + 1]) else stopped
  }

  /** The element revised its duration (a `durationchange`, such as a refined length
      estimate). No listener reacts to it: the element's duration, and with it the divisor of
      later time updates, changes while the rendered duration keeps its snapshot. */
  function OnDurationChange(s: Player, d: Num): (r: Player)
    ensures r.audio.duration == d
    ensures r.audio.paused == s.audio.paused && r.audio.currentTime == s.audio.currentTime
    ensures r.isPlaying == s.isPlaying && r.progress == s.progress && r.duration == s.duration
    ensures r.isLoading == s.isLoading && SamePreferences(s, r) && SameBinding(s, r)
  {
    s.(audio := s.audio.(duration := d))
  }

  /** Dispatches an event to its listener. */
  function Handle(s: Player, e: Event): Player
  {
    match e
    case LoadedMetadata(reported) => OnLoadedMetadata(s, reported)
    case TimeUpdate(t) => OnTimeUpdate(s, t)
    case Ended => OnEnded(s)
  }

  /** An event reaches a listener only when it comes from the binding that is attached; an
      event from a superseded binding (or after teardown) changes nothing. */
  function Deliver(s: Player, e: Tagged): (r: Player)
    ensures !s.listening || e.generation != s.generation ==> r == s
    ensures s.listening && e.generation == s.generation ==> r == Handle(s, e.event)
    ensures r.generation >= s.generation
  {
    if s.listening && e.generation == s.generation then Handle(s, e.event) else s
  }

  /** `togglePlay`: decided by the element's own paused flag, not by the rendered one. */
  function TogglePlay(s: Player): (r: Player)
    ensures r.audio.paused == !s.audio.paused
    ensures r.isPlaying == s.audio.paused
    ensures r.progress == s.progress && r.duration == s.duration && r.isLoading == s.isLoading
    ensures SamePreferences(s, r) && SameBinding(s, r)
    ensures r.audio == s.audio.(paused := !s.audio.paused)
  {
    if s.audio.paused then s.(isPlaying := true, audio := s.audio.(paused := false))
    else s.(isPlaying := false, audio := s.audio.(paused := true))
  }

  /** `handleVolumeChange(val)`: the new volume is `val[0]`, or 0 for an empty array. The
      element only accepts volumes in [0, 1]. Muting is cleared exactly when the new volume
      is positive and the player was muted. */
  function HandleVolumeChange(s: Player, val: seq<real>): (r: Player)
    requires |val| == 0 || 0.0 <= val[0] <= 1.0
    ensures r.volume == r.audio.volume == (if |val| == 0 then 0.0 else val[0])
    ensures r.muted == (s.muted && r.volume <= 0.0)
    ensures r.audio.muted == (if s.muted && r.volume > 0.0 then false else s.audio.muted)
    ensures r.isPlaying == s.isPlaying && r.progress == s.progress && r.duration == s.duration
    ensures r.isLoading == s.isLoading && r.audio.paused == s.audio.paused && SameBinding(s, r)
    ensures r.audio.currentTime == s.audio.currentTime && r.audio.duration == s.audio.duration
  {
    var v := if |val| == 0 then 0.0 else val[0];
    var applied := s.(volume := v, audio := s.audio.(volume := v));
    if v > 0.0 && s.muted then applied.(muted := false, audio := applied.audio.(muted := false)) else applied
  }

  /** `handleSeek(val)`: the ratio is taken as given (no clamping); the element is sent to
      `val` times the rendered duration and the progress becomes `val`. */
  function HandleSeek(s: Player, val: real): (r: Player)
    ensures r.progress == val
    ensures r.audio.currentTime == val * s.duration
    ensures r.isPlaying == s.isPlaying && r.audio.paused == s.audio.paused
    ensures r.duration == s.duration && r.isLoading == s.isLoading
    ensures SamePreferences(s, r) && SameBinding(s, r)
    ensures r.audio.duration == s.audio.duration
  {
    s.(progress := val, audio := s.audio.(currentTime := val * s.duration))
  }

  /** `toggleMute`: flips the muted flag on view and element alike; the volume stays. */
  function ToggleMute(s: Player): (r: Player)
    ensures r.muted == !s.muted && r.audio.muted == !s.muted
    ensures r.volume == s.volume && r.audio.volume == s.audio.volume
    ensures r.isPlaying == s.isPlaying && r.progress == s.progress && r.audio.paused == s.audio.paused
    ensures r.duration == s.duration && r.isLoading == s.isLoading
    ensures r.audio.currentTime == s.audio.currentTime && r.audio.duration == s.audio.duration
    ensures SameBinding(s, r)
  {
    s.(muted := !s.muted, audio := s.audio.(muted := !s.muted))
  }

  /** `handlePrevious`: nothing at or before the start of the list; otherwise the track one
      position back is selected. */
  function HandlePrevious(s: Player): (r: Player)
    ensures CurrentIndex(s) <= 0 ==> r == s
    ensures CurrentIndex(s) > 0 && s.tracks[CurrentIndex(s) - 1] != s.track ==>
      Rebound(s, r, s.tracks, s.tracks[CurrentIndex(s) - 1])
  {
    var i := CurrentIndex(s);
    if i > 0 then Select(s, s.tracks[i - 1]) else s
  }

  /** `handleNext`: nothing at the last position; otherwise the track one position on is
      selected, which is the first track when the current one is not in the list. */
  function HandleNext(s: Player): (r: Player)
    ensures CurrentIndex(s) >= |s.tracks| - 1 ==> r == s
    ensures CurrentIndex(s) < |s.tracks| - 1 && s.tracks[CurrentIndex(s) + 1] != s.track ==>
      Rebound(s, r, s.tracks, s.tracks[CurrentIndex(s) + 1])
    ensures CurrentIndex(s) < |s.tracks| - 1 && s.tracks[CurrentIndex(s) + 1] == s.track ==> r == s
  {
    var i := CurrentIndex(s);
    if i < |s.tracks| - 1 then Select(s, s.tracks[i + 1]) else s
  }
}

=== FILE: wrappers.dfy ===
/** The optional-value wrapper used for nullable inputs and partial parsers. */
module Wrappers {

  /** A value that may be absent (JavaScript `null`). */
  datatype Option<+T> = None | Some(value: T)
}
